=== FILE: README.md ===
# Catalog search result check

This project is a Dafny model of the one piece of decision logic in a Playwright
end-to-end suite for a course catalog: `CatalogPage.searchResults`
(pages/CatalogPage.ts:93-170). The method compares what the catalog page shows
after a search with what the catalog search API returns for the same query.

Here it is a pure function, `Catalog.SearchResults`. Its inputs are one settled
page snapshot and one parsed API response. The snapshot holds:

- whether the no-results indicator is visible;
- whether that indicator shows the configured message;
- the result title texts, in display order.

The function returns a `Verdict`:

- `Pass`;
- `Fail(reason)`, one reason for each `expect` that can fail;
- `Crash(site)`, for each place where the source would throw a `TypeError` on
  a well-formed list of hit objects.

The first failing step decides the verdict, as a thrown assertion does in the
source.

Modules, following the pieces of the method:

- `Optional`: the `Option` type, used for values that may be absent.
- `Text`: `normalizeText` (lower-case, collapse whitespace runs to one space,
  trim) and JavaScript `trim`. `IsSpace` is the JavaScript `\s` class.
  `Normalize` is written as the source's pipeline. It is proved equal to an
  independent description: the words of the lower-cased string, joined by
  single spaces. The shape, idempotence and equality properties are proved
  through that description.
- `Titles`: the hits of the response, the hit count with its `|| 0`
  fallback, and the order-preserving `Set` de-duplication of the defined raw
  titles (`uniqueTitles`). `CollectUniqueTitles` is the loop form of that
  de-duplication.
- `Matching`: the two-way substring match and the loop that stops at the first
  UI entry no API title matches.
- `Catalog`: the snapshot, the verdict, the branch structure, and the
  properties of the whole check.

In the `Catalog` model:

- A hit's `_highlightResult?.title?.value` is `Undefined` when any level of
  that path is missing, `Null` for an explicit JSON `null`, and `Str(text)`
  otherwise.
- A response whose `searchResult` or `searchResult.hits` is missing has
  `hits == None`.
- With the indicator hidden, such a response crashes at line 127. Line 105
  reads the same path with optional chaining, but line 127 does not.
- A `null` title passes the `!== undefined` filter. It then crashes
  `toLowerCase` in `normalizeText` at line 148.

Behaviour of the code worth knowing:

- The tests pass a fifth `enforceOrder` argument, but `searchResults` declares
  only four parameters, so the order of the results is never checked.
- De-duplication is applied to the raw titles, before normalization. Titles
  that differ only in case or spacing are therefore counted separately.
- With the indicator hidden and no API hits, nothing is required of the UI
  list.
- The content loop fails at the first UI entry that is not found. It does
  not collect all of them.

Note that utils/apiClient.ts:29 returns the raw response object, not its
parsed JSON body. So, as the repository is written, `responseData.searchResult`
is always undefined:

- with the indicator visible, the check behaves as if the API returned no
  hits;
- with the indicator hidden, it always crashes at line 127 (`Crash(HitsMissing)`).

The model takes the parsed body as input, which is what the method evidently
expects.

## Model

| member | source | states |
|---|---|---|
| Catalog.SearchResults | pages/CatalogPage.ts:93-170 | The verdict of the whole check. It never crashes while the no-results indicator is visible. A count failure reports the UI count and a de-duplicated count no larger than the API hit count. A content failure names one of the trimmed, normalized UI entries. |
| Catalog.EmptyStateVerdict | pages/CatalogPage.ts:109-116 | With the indicator visible, the check passes exactly when the indicator shows the configured message and the response has no hits (missing or empty). A missing message fails first, whatever the API says. |
| Catalog.EmptyStateIgnoresTitles | pages/CatalogPage.ts:109-116 | With the indicator visible, the UI title list has no influence on the verdict. |
| Catalog.NoHitsPasses | pages/CatalogPage.ts:163-167 | With the indicator hidden and an empty hit list, the check passes whatever titles the UI shows. |
| Catalog.MissingHitsCrash | pages/CatalogPage.ts:105-127 | With the indicator hidden and no `hits` in the response, the count falls back to 0. Building `uniqueTitles` still dereferences the missing list, so the check crashes instead of passing. |
| Catalog.CountChecked | pages/CatalogPage.ts:137-139 | With the indicator hidden and at least one hit, the check fails on the count exactly when the number of de-duplicated titles differs from the number of UI entries. It then reports both numbers. The count is checked before any title is read. |
| Catalog.NullTitleCrashes | pages/CatalogPage.ts:130-148 | Once the counts agree, the check crashes in the normalization of the API titles exactly when some hit's title is an explicit `null`. |
| Catalog.UiNormalized | pages/CatalogPage.ts:143-147 | `normalizedUIResults`: each UI title text, trimmed and then passed through `normalizeText`, one entry per text in display order. |
| Catalog.ApiNormalized | pages/CatalogPage.ts:148 | `normalizedAPIResults`: `normalizeText` of each de-duplicated title, one entry per title in order, defined only once every title is a string. |
| Catalog.ContentChecked | pages/CatalogPage.ts:143-160 | Once the counts agree and no title is `null`, every de-duplicated title is a string. The verdict is then the content check of the trimmed, normalized UI entries against the normalized de-duplicated titles. |
| Catalog.ContentVerdict | pages/CatalogPage.ts:151-160 | The content check passes exactly when every UI entry matches some API title. Otherwise it fails naming an unmatched entry, and every entry before that one is matched. |
| Catalog.OrderNeverCompared | pages/CatalogPage.ts:141-160 | Showing the same UI entries in another order neither turns a pass into a non-pass nor the reverse, and crashes stay crashes. |
| Catalog.VerdictReadsNormalForms | pages/CatalogPage.ts:143-147 | UI title lists with the same trimmed, normalized entries give the same verdict. |
| Catalog.OnlyNormalFormCompared | pages/CatalogPage.ts:143-147 | Replacing one UI entry by another that trims and normalizes to the same string leaves the verdict unchanged. |
| Catalog.ExtraApiTitlesNeverFail | pages/CatalogPage.ts:151-160 | Adding API titles never turns a passing content check into a failure: the titles are only searched, never required. |
| Catalog.ApiOnlyTitleGoesUnnoticed | pages/CatalogPage.ts:139-160 | An API title that no UI entry matches does not fail the content check: entries "a" and "b" pass against titles "ab" and "x". Only the count check can catch such a title. |
| Catalog.TwoWordPage | pages/CatalogPage.ts:137-160 | For lower-case one-word titles, a page showing two results, with the indicator hidden and whatever its message, against two hits with distinct titles gets exactly the verdict of the content check on those words as they are. |
| Catalog.ApiOnlyTitleGoesUnnoticedOnPage | pages/CatalogPage.ts:137-160 | The whole check passes for a page showing "a" and "b", with the indicator hidden and whatever its message, against hits titled "ab" and "x", although no UI entry matches "x". |
| Titles.ApiResultsCount | pages/CatalogPage.ts:105 | `apiResultsCount`: the number of hits, or 0 when `searchResult` or `hits` is missing. `Titles.ApiResultsCountZero` states when it is 0. |
| Titles.UniqueTitles | pages/CatalogPage.ts:125-134 | The de-duplicated titles are pairwise distinct and no more numerous than the hits. A value is among them exactly when it is defined and some hit carries it. |
| Titles.CollectUniqueTitles | pages/CatalogPage.ts:125-134 | One pass with a seen-set, skipping undefined titles and titles already seen, yields exactly `uniqueTitles`. |
| Titles.UniqueTitlesExactlyOnce | pages/CatalogPage.ts:125-134 | Every defined hit title occurs in `uniqueTitles` exactly once, and `undefined` never does. |
| Titles.UniqueTitlesFirstOccurrenceOrder | pages/CatalogPage.ts:125-134 | `uniqueTitles` lists the titles in the order of their first occurrence among the hits. |
| Titles.UniqueTitlesLength | pages/CatalogPage.ts:105-134 | `uniqueTitles` is never longer than `apiResultsCount`. It is exactly as long precisely when every hit has a defined title and no two hits share one. |
| Titles.UntitledHitsCount | pages/CatalogPage.ts:105-132 | A hit without a title, inserted at any position among the hits, adds one to `apiResultsCount` and nothing to `uniqueTitles`. |
| Titles.CaseVariantsStayDistinct | pages/CatalogPage.ts:125-134 | De-duplication compares raw titles, so "Cloud" and "cloud" both stay in `uniqueTitles`. |
| Titles.ApiResultsCountZero | pages/CatalogPage.ts:105 | `apiResultsCount` is 0 exactly when the hits are missing or empty. |
| Matching.Includes | pages/CatalogPage.ts:153 | `a.includes(b)`: `b` occurs in `a` as a contiguous run, the empty string occurring in every string. `Matching.IncludesIsSplit` characterises it. |
| Matching.Matches | pages/CatalogPage.ts:153 | The two-way match: the API title contains the UI entry or the UI entry contains the API title. |
| Matching.Found | pages/CatalogPage.ts:152-154 | `normalizedAPIResults.some(...)`: some API title matches the UI entry. |
| Matching.FirstUnmatched | pages/CatalogPage.ts:151-160 | The loop finds no unmatched entry exactly when every UI entry is found. Otherwise it returns the first entry, in display order, that is not found. |
| Matching.IncludesIsSplit | pages/CatalogPage.ts:153 | `a.includes(b)` holds exactly when `a` splits as `p + b + q`. |
| Matching.MatchesSymmetric | pages/CatalogPage.ts:153 | The two-way match does not depend on which side is the API title. |
| Matching.MatchesReflexive | pages/CatalogPage.ts:153 | Every string matches itself. |
| Matching.EmptyMatchesEverything | pages/CatalogPage.ts:153 | An empty normalized UI entry matches every API title. |
| Matching.EmptyFoundWhenAnyTitle | pages/CatalogPage.ts:152-154 | An empty normalized UI entry is found as soon as there is any API title. |
| Matching.MatchesSameLength | pages/CatalogPage.ts:153 | Between strings of equal length the two-way match is plain equality. |
| Text.IsSpace | pages/CatalogPage.ts:144 | The `\s` class: the ECMAScript WhiteSpace and LineTerminator characters, which are also exactly what `trim` removes at lines 99 and 143. |
| Text.ToLower | pages/CatalogPage.ts:144 | `toLowerCase` on one character, restricted to ASCII `A`-`Z`: the result is never an upper-case letter, is whitespace exactly when the input is, and equals the input when that is not an upper-case letter. |
| Text.Lower | pages/CatalogPage.ts:144 | `toLowerCase` on a string: same length, each character mapped by `Text.ToLower`. |
| Text.Trim | pages/CatalogPage.ts:99 | `String.prototype.trim`, also at line 143: the leading whitespace run is removed, then the trailing one. `Text.TrimIsInnerSlice` and `Text.TrimEdges` characterise it. |
| Text.Collapse | pages/CatalogPage.ts:144 | `replace(/\s+/g, ' ')`: every maximal whitespace run becomes one space, every other character is copied. |
| Text.Normalize | pages/CatalogPage.ts:144 | `normalizeText`: lower-case, collapse the whitespace runs, trim. `Text.NormalizeIsJoinedWords` equates it with the lower-cased words joined by single spaces. |
| Text.TrimEndRemovesSpace | pages/CatalogPage.ts:99 | What the trailing half of `trim` removes is whitespace only. |
| Text.TrimIsInnerSlice | pages/CatalogPage.ts:99 | `trim` returns a contiguous slice of its input, and everything before and after that slice is whitespace. |
| Text.TrimEdges | pages/CatalogPage.ts:99 | The result of `trim` neither starts nor ends with whitespace. |
| Text.FixedWord | pages/CatalogPage.ts:143-144 | A lower-case word without whitespace is left unchanged by `trim` and by `normalizeText`. |
| Text.TrimIdempotent | pages/CatalogPage.ts:99 | Trimming a trimmed string changes nothing, so the repeated `trim` at line 143 is redundant. |
| Text.NormalizeIsJoinedWords | pages/CatalogPage.ts:144 | `normalizeText` returns the words of the lower-cased input, separated by single spaces. |
| Text.WordsOfJoin | pages/CatalogPage.ts:144 | Splitting words joined by single spaces gives back those words: the round trip behind the normalization properties. |
| Text.NormalizeShape | pages/CatalogPage.ts:144 | The output of `normalizeText` has no leading or trailing whitespace. It has no two adjacent whitespace characters, every whitespace character in it is a plain space, and it has no upper-case letter. |
| Text.NormalizeFixesNormalized | pages/CatalogPage.ts:144 | A lower-case string of that shape is left unchanged by `normalizeText`. |
| Text.NormalizeIdempotent | pages/CatalogPage.ts:144 | Applying `normalizeText` twice equals applying it once. |
| Text.NormalizeEqualIff | pages/CatalogPage.ts:144 | Two strings normalize to the same string exactly when their lower-cased words agree. |
| Text.CaseInsensitive | pages/CatalogPage.ts:144 | Strings that differ only in letter case normalize to the same string. |
| Text.WhitespaceInsensitive | pages/CatalogPage.ts:144 | Strings that differ only in the length or kind of their whitespace runs, leading and trailing runs included, normalize to the same string. |

## Left out

- Browser interaction is not modelled: `search`, `skillFilter`, `sortByRating` and `levelFilter` (pages/CatalogPage.ts:14-91) and `HeaderPage.catalog` (pages/headerPage.ts:12-26). They are locator clicks, waits and URL assertions against a live page.
- The page reads at lines 98, 107, 112 and 119 become fields of `Catalog.UiSnapshot`. The second read of the titles (lines 119-120) is taken to see the same settled page as the first. Playwright's auto-waiting and retrying of `toContainText` is not modelled.
- The HTTP call in utils/apiClient.ts is transport, and its request body is a constant literal. The model takes the parsed response body as an input.
- `step(...)` wrappers, `console.log` calls and the redundant `toBeVisible` at line 111 do not affect the verdict.
- The configured no-results message (`catalogData.noResultsText`) is not part of this model. Whether the indicator contains it is a boolean input.
- The hits are taken to be objects. A `null` element of `hits` would throw at line 130 (`hit._highlightResult` on `null`), and `Titles.Hit` cannot represent it.
- Title values other than missing, `null` or a string (a number, an object) are not modelled. The annotated type at line 129 admits only strings.
- Configuration, linting and fixture wiring (playwright.config.ts, eslint.config.js, base/pomFixture.ts) and the test orchestration in tests/search-input.spec.ts are not modelled.
- Order enforcement and highlight-markup stripping do not exist in the source and are not modelled.
- Text.ToLower: maps only the ASCII letters `A`-`Z`, not the full Unicode case mapping of `toLowerCase`. Characters outside ASCII are left unchanged, so `CaseInsensitive` is proved for ASCII case differences only. The `\s` class and `trim` are modelled exactly.

=== FILE: catalog.dfy ===
/**
  The UI-versus-API result check of `CatalogPage.searchResults`
  (pages/CatalogPage.ts:93-170) as a pure decision over one settled page
  snapshot and one parsed API response.

  Each `expect` of the source that can fail becomes a `Fail` reason; a
  `TypeError` the source would throw becomes a `Crash`. The first failing
  step decides the verdict, as a thrown assertion does in the source.
 */
module Catalog {
  import opened Optional
  import opened Text
  import opened Titles
  import opened Matching

  /**
    The page as read at pages/CatalogPage.ts:98 and 107-112. The second read of
    the result titles (line 119) is taken to see the same settled page.
   */
  datatype UiSnapshot = UiSnapshot(
    noResultsVisible: bool,     // `noResultsText.isVisible()`
    noResultsHasMessage: bool,  // the indicator contains the configured no-results text
    texts: seq<string>)         // `allTextContents()` of the result titles, in display order

  datatype FailReason =
    | NoResultsMessageMissing                      // line 112
    | ApiReturnedResults(apiCount: nat)            // line 115
    | CountMismatch(uniqueCount: nat, uiCount: nat) // line 139
    | UiEntryNotFound(entry: string)               // line 159

  datatype CrashSite =
    | HitsMissing     // `apiResponse.searchResult.hits.map` on a missing value, line 127
    | TitleNotString  // `toLowerCase` on a `null` title, lines 144 and 148

  datatype Verdict = Pass | Fail(reason: FailReason) | Crash(site: CrashSite)

  /** `uiResultsOrdered`, normalized: `normalizeText(text.trim())` per entry (lines 99, 143, 147). */
  function UiNormalized(texts: seq<string>): (r: seq<string>)
    ensures |r| == |texts|
  {
    seq(|texts|, i requires 0 <= i < |texts| => Normalize(Trim(texts[i])))
  }

  predicate AllStrings(u: seq<TitleValue>) {
    forall j :: 0 <= j < |u| ==> u[j].Str?
  }

  /** `uniqueTitles.map(normalizeText)` once every title is a string (line 148). */
  function ApiNormalized(u: seq<TitleValue>): (r: seq<string>)
    requires AllStrings(u)
    ensures |r| == |u|
  {
    seq(|u|, j requires 0 <= j < |u| => Normalize(u[j].text))
  }

  /**
    The loop of lines 151-160 as a verdict: pass when every UI entry is found,
    otherwise fail on the first UI entry, in display order, that is not.
   */
  function ContentVerdict(uiResults: seq<string>, apiResults: seq<string>): (v: Verdict)
    ensures v == Pass <==> AllFound(uiResults, apiResults)
    ensures v != Pass ==> exists k :: (0 <= k < |uiResults| &&
      v == Fail(UiEntryNotFound(uiResults[k])) && !Found(uiResults[k], apiResults) &&
      forall m :: 0 <= m < k ==> Found(uiResults[m], apiResults))
  {
    match FirstUnmatched(uiResults, apiResults)
    case None => Pass
    case Some(entry) => Fail(UiEntryNotFound(entry))
  }

  /** The verdict of `searchResults` for one page snapshot and one API response. */
  function SearchResults(ui: UiSnapshot, response: ApiResponse): (v: Verdict)
    ensures ui.noResultsVisible ==> !v.Crash?
    ensures v.Fail? && v.reason.CountMismatch? ==>
      v.reason.uiCount == |ui.texts| && v.reason.uniqueCount <= ApiResultsCount(response)
    ensures v.Fail? && v.reason.UiEntryNotFound? ==> v.reason.entry in UiNormalized(ui.texts)
  {
    var apiResultsCount := ApiResultsCount(response);
    if ui.noResultsVisible then
      if !ui.noResultsHasMessage then Fail(NoResultsMessageMissing)
      else if apiResultsCount != 0 then Fail(ApiReturnedResults(apiResultsCount))
      else Pass
    else
      match response.hits
      case None => Crash(HitsMissing)
      case Some(hits) =>
        var uniqueTitles := UniqueTitles(hits);
        if apiResultsCount > 0 then
          if |uniqueTitles| != |ui.texts| then
            Fail(CountMismatch(|uniqueTitles|, |ui.texts|))
          else if Null in uniqueTitles then
            Crash(TitleNotString)
          else
            StringTitles(hits);
            ContentVerdict(UiNormalized(ui.texts), ApiNormalized(uniqueTitles))
        else
          Pass
  }

  /** Without a `null` title every entry of `uniqueTitles` is a string. */
  lemma StringTitles(hits: seq<Hit>)
    requires Null !in UniqueTitles(hits)
    ensures AllStrings(UniqueTitles(hits))
  {
    var u := UniqueTitles(hits);
    forall j | 0 <= j < |u|
      ensures u[j].Str?
    {
      assert u[j] in u;
    }
  }

  // ---------------------------------------------------------------------
  // The empty-state branch (lines 109-116)

  /**
    With the no-results indicator visible the check passes exactly when the
    indicator shows the configured message and the API reports no hits; it
    never crashes there, even when the hits are missing.
   */
  lemma EmptyStateVerdict(ui: UiSnapshot, response: ApiResponse)
    requires ui.noResultsVisible
    ensures SearchResults(ui, response) == Pass <==>
      ui.noResultsHasMessage && (response.hits == None || response.hits == Some([]))
    ensures !ui.noResultsHasMessage ==> SearchResults(ui, response) == Fail(NoResultsMessageMissing)
  {
    ApiResultsCountZero(response);
  }

  /** In the empty-state branch the UI title list is not inspected. */
  lemma EmptyStateIgnoresTitles(ui: UiSnapshot, response: ApiResponse, otherTexts: seq<string>)
    requires ui.noResultsVisible
    ensures SearchResults(ui.(texts := otherTexts), response) == SearchResults(ui, response)
  {
  }

  // ---------------------------------------------------------------------
  // The indicator hidden, no API results (lines 163-167) or no hits at all (line 127)

  /** Hidden indicator and an empty hit list: the check passes whatever the UI shows. */
  lemma NoHitsPasses(ui: UiSnapshot, response: ApiResponse)
    requires !ui.noResultsVisible && response.hits == Some([])
    ensures SearchResults(ui, response) == Pass
  {
  }

  /**
    Hidden indicator and no `hits` in the response: although the count falls
    back to zero, building `uniqueTitles` dereferences the missing list.
   */
  lemma MissingHitsCrash(ui: UiSnapshot, response: ApiResponse)
    requires !ui.noResultsVisible && response.hits == None
    ensures ApiResultsCount(response) == 0
    ensures SearchResults(ui, response) == Crash(HitsMissing)
  {
  }

  // ---------------------------------------------------------------------
  // The indicator hidden, some API results (lines 137-160)

  /** The count check compares de-duplicated API titles with UI entries and comes first. */
  lemma CountChecked(ui: UiSnapshot, hits: seq<Hit>)
    requires !ui.noResultsVisible && |hits| > 0
    ensures |UniqueTitles(hits)| != |ui.texts| <==>
      SearchResults(ui, ApiResponse(Some(hits))).Fail?
      && SearchResults(ui, ApiResponse(Some(hits))).reason.CountMismatch?
    ensures |UniqueTitles(hits)| != |ui.texts| ==>
      SearchResults(ui, ApiResponse(Some(hits))) == Fail(CountMismatch(|UniqueTitles(hits)|, |ui.texts|))
  {
    var v := SearchResults(ui, ApiResponse(Some(hits)));
    if |UniqueTitles(hits)| == |ui.texts| && v.Fail? {
      assert !v.reason.CountMismatch?;
    }
  }

  /** A `null` title that survives the filter crashes the normalization of the API titles. */
  lemma NullTitleCrashes(ui: UiSnapshot, hits: seq<Hit>)
    requires !ui.noResultsVisible && |hits| > 0
    requires |UniqueTitles(hits)| == |ui.texts|
    ensures SearchResults(ui, ApiResponse(Some(hits))) == Crash(TitleNotString) <==> HasTitle(hits, Null)
  {
  }

  /**
    Once the counts agree and every title is a string, the verdict is the
    content check of the trimmed, normalized UI entries against the
    normalized de-duplicated API titles.
   */
  lemma ContentChecked(ui: UiSnapshot, hits: seq<Hit>)
    requires !ui.noResultsVisible && |hits| > 0
    requires |UniqueTitles(hits)| == |ui.texts|
    requires !HasTitle(hits, Null)
    ensures AllStrings(UniqueTitles(hits))
    ensures SearchResults(ui, ApiResponse(Some(hits))) ==
      ContentVerdict(UiNormalized(ui.texts), ApiNormalized(UniqueTitles(hits)))
  {
    StringTitles(hits);
  }

  /** The normalized UI entries depend only on which texts are shown, not on their order. */
  lemma UiNormalizedMembers(texts: seq<string>, texts': seq<string>)
    requires forall t :: t in texts ==> t in texts'
    ensures forall e :: e in UiNormalized(texts) ==> e in UiNormalized(texts')
  {
    var uiN, uiN' := UiNormalized(texts), UiNormalized(texts');
    forall e | e in uiN
      ensures e in uiN'
    {
      var i :| 0 <= i < |uiN| && uiN[i] == e;
      assert texts[i] in texts';
      var k :| 0 <= k < |texts'| && texts'[k] == texts[i];
      assert uiN'[k] == e;
    }
  }

  /** `AllFound` asks only about membership of the UI entries. */
  lemma AllFoundByMembership(uiResults: seq<string>, uiResults': seq<string>, apiResults: seq<string>)
    requires forall e :: e in uiResults' ==> e in uiResults
    requires AllFound(uiResults, apiResults)
    ensures AllFound(uiResults', apiResults)
  {
    forall i | 0 <= i < |uiResults'|
      ensures Found(uiResults'[i], apiResults)
    {
      assert uiResults'[i] in uiResults;
    }
  }

  /**
    Order is never compared: showing the same UI entries in another order
    neither turns a pass into a failure nor the other way round, and crashes
    stay crashes.
   */
  lemma OrderNeverCompared(ui: UiSnapshot, reordered: seq<string>, response: ApiResponse)
    requires multiset(reordered) == multiset(ui.texts)
    ensures SearchResults(ui.(texts := reordered), response) == Pass <==> SearchResults(ui, response) == Pass
    ensures SearchResults(ui.(texts := reordered), response).Crash? <==> SearchResults(ui, response).Crash?
  {
    var ui' := ui.(texts := reordered);
    assert |reordered| == |multiset(reordered)| == |multiset(ui.texts)| == |ui.texts|;
    if !ui.noResultsVisible && response.hits.Some? {
      var hits := response.hits.value;
      if |hits| > 0 && |UniqueTitles(hits)| == |ui.texts| && !HasTitle(hits, Null) {
        ContentChecked(ui, hits);
        ContentChecked(ui', hits);
        forall t | t in ui.texts
          ensures t in reordered
        {
          assert t in multiset(ui.texts);
        }
        forall t | t in reordered
          ensures t in ui.texts
        {
          assert t in multiset(reordered);
        }
        UiNormalizedMembers(ui.texts, reordered);
        UiNormalizedMembers(reordered, ui.texts);
        var apiN := ApiNormalized(UniqueTitles(hits));
        if AllFound(UiNormalized(ui.texts), apiN) {
          AllFoundByMembership(UiNormalized(ui.texts), UiNormalized(reordered), apiN);
        }
        if AllFound(UiNormalized(reordered), apiN) {
          AllFoundByMembership(UiNormalized(reordered), UiNormalized(ui.texts), apiN);
        }
      }
    }
  }

  /** The verdict reads the UI entries only through their normal forms. */
  lemma VerdictReadsNormalForms(ui: UiSnapshot, texts': seq<string>, response: ApiResponse)
    requires |texts'| == |ui.texts|
    requires forall k :: 0 <= k < |texts'| ==> UiNormalized(texts')[k] == UiNormalized(ui.texts)[k]
    ensures SearchResults(ui.(texts := texts'), response) == SearchResults(ui, response)
  {
    assert UiNormalized(texts') == UiNormalized(ui.texts);
  }

  lemma UiNormalizedUpdate(texts: seq<string>, i: nat, text: string)
    requires i < |texts|
    requires Normalize(Trim(text)) == Normalize(Trim(texts[i]))
    ensures forall k :: 0 <= k < |texts| ==> UiNormalized(texts[i := text])[k] == UiNormalized(texts)[k]
  {
  }

  /**
    UI entries are compared only through their normal form: replacing an entry
    by one that trims and normalizes to the same string (another letter case,
    other whitespace) leaves the verdict unchanged.
   */
  lemma OnlyNormalFormCompared(ui: UiSnapshot, i: nat, text: string, response: ApiResponse)
    requires i < |ui.texts|
    requires Normalize(Trim(text)) == Normalize(Trim(ui.texts[i]))
    ensures SearchResults(ui.(texts := ui.texts[i := text]), response) == SearchResults(ui, response)
  {
    UiNormalizedUpdate(ui.texts, i, text);
    VerdictReadsNormalForms(ui, ui.texts[i := text], response);
  }

  /**
    API titles are only ever searched, never required: adding API titles never
    turns a passing content check into a failure.
   */
  lemma ExtraApiTitlesNeverFail(uiResults: seq<string>, apiResults: seq<string>, extra: seq<string>)
    requires ContentVerdict(uiResults, apiResults) == Pass
    ensures ContentVerdict(uiResults, apiResults + extra) == Pass
  {
    forall i | 0 <= i < |uiResults|
      ensures Found(uiResults[i], apiResults + extra)
    {
      var j :| 0 <= j < |apiResults| && Matches(apiResults[j], uiResults[i]);
      assert (apiResults + extra)[j] == apiResults[j];
    }
  }

  /**
    So an API title absent from the UI is caught only by the count check: UI
    entries "a" and "b" pass against API titles "ab" and "x", although neither
    entry matches "x".
   */
  lemma ApiOnlyTitleGoesUnnoticed()
    ensures ContentVerdict(["a", "b"], ["ab", "x"]) == Pass
    ensures !Matches("x", "a") && !Matches("x", "b")
  {
    assert Matches(["ab", "x"][0], ["a", "b"][0]) by {
      assert "a" <= "ab"[0..];
    }
    assert Matches(["ab", "x"][0], ["a", "b"][1]) by {
      assert "b" <= "ab"[1..];
    }
    assert AllFound(["a", "b"], ["ab", "x"]);
    MatchesSameLength("x", "a");
    MatchesSameLength("x", "b");
  }

  /** UI entries that are lower-case words are their own normal forms. */
  lemma UiNormalizedFixesWords(texts: seq<string>)
    requires forall i :: 0 <= i < |texts| ==> LowerWord(texts[i])
    ensures UiNormalized(texts) == texts
  {
    forall i | 0 <= i < |texts|
      ensures UiNormalized(texts)[i] == texts[i]
    {
      FixedWord(texts[i]);
    }
  }

  /** API titles that are lower-case words are their own normal forms. */
  lemma ApiNormalizedFixesWords(u: seq<TitleValue>)
    requires forall j :: 0 <= j < |u| ==> u[j].Str? && LowerWord(u[j].text)
    ensures AllStrings(u)
    ensures forall j :: 0 <= j < |u| ==> ApiNormalized(u)[j] == u[j].text
  {
    forall j | 0 <= j < |u|
      ensures ApiNormalized(u)[j] == u[j].text
    {
      FixedWord(u[j].text);
    }
  }

  // The two-word page fact is split into the three lemmas below only to keep
  // each proof small for the solver.

  /**
    A page showing two results against two hits with distinct titles reaches
    the content check. The indicator is hidden, so its message is never read.
   */
  lemma TwoResultPage(hasMessage: bool, a: string, b: string, c: string, d: string)
    requires c != d
    ensures AllStrings([Str(c), Str(d)])
    ensures SearchResults(UiSnapshot(false, hasMessage, [a, b]), ApiResponse(Some([Hit(Str(c)), Hit(Str(d))]))) ==
      ContentVerdict(UiNormalized([a, b]), ApiNormalized([Str(c), Str(d)]))
  {
    TwoDistinctTitles(c, d);
    ContentChecked(UiSnapshot(false, hasMessage, [a, b]), [Hit(Str(c)), Hit(Str(d))]);
  }

  /** Lower-case words on both sides are compared as they are. */
  lemma TwoWordNormalForms(a: string, b: string, c: string, d: string)
    requires LowerWord(a) && LowerWord(b) && LowerWord(c) && LowerWord(d)
    ensures AllStrings([Str(c), Str(d)])
    ensures UiNormalized([a, b]) == [a, b]
    ensures ApiNormalized([Str(c), Str(d)]) == [c, d]
  {
    UiNormalizedFixesWords([a, b]);
    ApiNormalizedFixesWords([Str(c), Str(d)]);
  }

  /**
    For lower-case word titles, a page showing two results passes for two
    distinct hits exactly as their content check does, whatever the hidden
    indicator's message.
   */
  lemma TwoWordPage(hasMessage: bool, a: string, b: string, c: string, d: string)
    requires LowerWord(a) && LowerWord(b) && LowerWord(c) && LowerWord(d)
    requires c != d
    ensures SearchResults(UiSnapshot(false, hasMessage, [a, b]), ApiResponse(Some([Hit(Str(c)), Hit(Str(d))]))) ==
      ContentVerdict([a, b], [c, d])
  {
    TwoResultPage(hasMessage, a, b, c, d);
    TwoWordNormalForms(a, b, c, d);
  }

  /**
    The same on a whole page: the results "a" and "b" shown for a response
    whose hits are titled "ab" and "x" pass the check, whatever the hidden
    indicator's message.
   */
  lemma ApiOnlyTitleGoesUnnoticedOnPage(hasMessage: bool)
    ensures SearchResults(UiSnapshot(false, hasMessage, ["a", "b"]),
      ApiResponse(Some([Hit(Str("ab")), Hit(Str("x"))]))) == Pass
  {
    TwoWordPage(hasMessage, "a", "b", "ab", "x");
    ApiOnlyTitleGoesUnnoticed();
  }

}

=== FILE: matching.dfy ===
/**
  The content check of the catalog page object: a UI entry is found when some
  API title contains it or is contained in it (pages/CatalogPage.ts:152-154),
  and the loop over the UI entries stops at the first entry not found
  (pages/CatalogPage.ts:151-160).
 */
module Matching {
  import opened Optional

  /** `a.includes(b)`: `b` occurs in `a` as a contiguous run; `""` occurs in every string. */
  predicate Includes(a: string, b: string) {
    exists i :: 0 <= i <= |a| - |b| && b <= a[i..]
  }

  /** `apiResult.includes(uiResult) || uiResult.includes(apiResult)`. */
  predicate Matches(apiResult: string, uiResult: string) {
    Includes(apiResult, uiResult) || Includes(uiResult, apiResult)
  }

  /** `normalizedAPIResults.some(apiResult => Matches(apiResult, uiResult))`. */
  predicate Found(uiResult: string, apiResults: seq<string>) {
    exists j :: 0 <= j < |apiResults| && Matches(apiResults[j], uiResult)
  }

  /** Every UI entry is found among the API titles. */
  predicate AllFound(uiResults: seq<string>, apiResults: seq<string>) {
    forall i :: 0 <= i < |uiResults| ==> Found(uiResults[i], apiResults)
  }

  /**
    The `for ... of` loop with `expect(found).toBe(true)`: the first UI entry,
    in display order, that no API title matches, or `None` when all are found.
   */
  function FirstUnmatched(uiResults: seq<string>, apiResults: seq<string>): (r: Option<string>)
    ensures r == None <==> AllFound(uiResults, apiResults)
    ensures r.Some? ==> exists k :: (0 <= k < |uiResults| && uiResults[k] == r.value &&
      !Found(uiResults[k], apiResults) &&
      forall m :: 0 <= m < k ==> Found(uiResults[m], apiResults))
  {
    if uiResults == [] then None
    else if !Found(uiResults[0], apiResults) then Some(uiResults[0])
    else
      var r := FirstUnmatched(uiResults[1..], apiResults);
      assert forall i :: 1 <= i < |uiResults| ==> uiResults[1..][i - 1] == uiResults[i];
      r
  }

  // ---------------------------------------------------------------------
  // Properties of the match predicate

  /** `Includes` is occurrence as a contiguous run: `a` splits as `p + b + q`. */
  lemma IncludesIsSplit(a: string, b: string)
    ensures Includes(a, b) <==> exists p, q :: a == p + b + q
  {
    if Includes(a, b) {
      var i :| 0 <= i <= |a| - |b| && b <= a[i..];
      assert a == a[..i] + b + a[i + |b|..];
    }
    if exists p, q :: a == p + b + q {
      var p, q :| a == p + b + q;
      assert b <= a[|p|..];
    }
  }

  /** The match is symmetric. */
  lemma MatchesSymmetric(a: string, b: string)
    ensures Matches(a, b) <==> Matches(b, a)
  {
  }

  /** Every string matches itself. */
  lemma MatchesReflexive(a: string)
    ensures Matches(a, a)
  {
    assert a <= a[0..];
  }

  /** An empty UI entry matches every API title. */
  lemma EmptyMatchesEverything(apiResult: string)
    ensures Matches(apiResult, "")
  {
    assert "" <= apiResult[0..];
  }

  /** Hence an empty UI entry is found as soon as there is any API title. */
  lemma EmptyFoundWhenAnyTitle(apiResults: seq<string>)
    requires |apiResults| > 0
    ensures Found("", apiResults)
  {
    EmptyMatchesEverything(apiResults[0]);
  }

  /** Two strings of equal length match exactly when they are equal. */
  lemma MatchesSameLength(a: string, b: string)
    requires |a| == |b|
    ensures Matches(a, b) <==> a == b
  {
    if a == b {
      MatchesReflexive(a);
    }
    if Includes(a, b) {
      var i :| 0 <= i <= |a| - |b| && b <= a[i..];
      assert i == 0 && a[0..] == a;
    }
    if Includes(b, a) {
      var i :| 0 <= i <= |b| - |a| && a <= b[i..];
      assert i == 0 && b[0..] == b;
    }
  }

}

=== FILE: optional.dfy ===
/** The optional value used where the source reads a property that may be absent. */
module Optional {

  datatype Option<+T> = None | Some(value: T)

}

=== FILE: text.dfy ===
/**
  String handling behind `normalizeText` in the catalog page object:
  lower-case, replace every whitespace run by one space, trim.

  `IsSpace` is the JavaScript `\s` class, which is also exactly the set of
  characters `String.prototype.trim` removes (ECMAScript WhiteSpace plus
  LineTerminator). Case mapping is restricted to ASCII `A`-`Z`.

  The pipeline as written is `Normalize`; its independent description is
  `Join(Words(Lower(s)))`: the words of the lower-cased string separated by
  single spaces. `NormalizeIsJoinedWords` connects the two, and the round trip
  `WordsOfJoin` then gives the shape, idempotence and equality properties.
 */
module Text {

  /** A character matched by `\s` (and removed by `trim`). */
  predicate IsSpace(c: char) {
    || c == '\t' || c == '\n' || c == '\U{000B}' || c == '\U{000C}' || c == '\r' || c == ' '
    || c == '\U{00A0}' || c == '\U{1680}' || ('\U{2000}' <= c <= '\U{200A}')
    || c == '\U{2028}' || c == '\U{2029}' || c == '\U{202F}' || c == '\U{205F}'
    || c == '\U{3000}' || c == '\U{FEFF}'
  }

  predicate IsUpper(c: char) {
    'A' <= c <= 'Z'
  }

  /** `toLowerCase` on one character, restricted to ASCII letters. */
  function ToLower(c: char): (d: char)
    ensures !IsUpper(d)
    ensures IsSpace(d) <==> IsSpace(c)
    ensures !IsUpper(c) ==> d == c
  {
    if IsUpper(c) then (c as int + 32) as char else c
  }

  /** `toLowerCase` on a string. */
  function Lower(s: string): (r: string)
    ensures |r| == |s|
    ensures forall i :: 0 <= i < |s| ==> r[i] == ToLower(s[i])
  {
    seq(|s|, i requires 0 <= i < |s| => ToLower(s[i]))
  }

  predicate NoUpper(s: string) {
    forall i :: 0 <= i < |s| ==> !IsUpper(s[i])
  }

  predicate AllSpace(s: string) {
    forall i :: 0 <= i < |s| ==> IsSpace(s[i])
  }

  predicate NoSpace(s: string) {
    forall i :: 0 <= i < |s| ==> !IsSpace(s[i])
  }

  /** A word: a non-empty run of characters none of which is whitespace. */
  predicate IsWord(w: string) {
    |w| > 0 && NoSpace(w)
  }

  /** A lower-case word: what `normalizeText` leaves unchanged. */
  predicate LowerWord(t: string) {
    IsWord(t) && NoUpper(t)
  }

  predicate AllWords(ws: seq<string>) {
    forall i :: 0 <= i < |ws| ==> IsWord(ws[i])
  }

  /** Removes the leading whitespace run: the first half of `trim`. */
  function TrimStart(s: string): (r: string)
    ensures |r| <= |s|
    ensures r == [] || !IsSpace(r[0])
    ensures s == [] || !IsSpace(s[0]) ==> r == s
  {
    if |s| > 0 && IsSpace(s[0]) then TrimStart(s[1..]) else s
  }

  /** What `TrimStart` leaves is a suffix of its input. */
  lemma {:induction false} TrimStartSuffix(s: string)
    ensures TrimStart(s) == s[|s| - |TrimStart(s)|..]
  {
    if |s| > 0 && IsSpace(s[0]) {
      TrimStartSuffix(s[1..]);
      assert s[1..][|s| - 1 - |TrimStart(s)|..] == s[|s| - |TrimStart(s)|..];
    }
  }

  /** Removes the trailing whitespace run: the second half of `trim`. */
  function TrimEnd(s: string): (r: string)
    ensures |r| <= |s| && r == s[..|r|]
    ensures r == [] || !IsSpace(r[|r| - 1])
    ensures s == [] || !IsSpace(s[|s| - 1]) ==> r == s
  {
    if |s| > 0 && IsSpace(s[|s| - 1]) then TrimEnd(s[..|s| - 1]) else s
  }

  /** `String.prototype.trim`. */
  function Trim(s: string): string {
    TrimEnd(TrimStart(s))
  }

  /**
    `replace(/\s+/g, ' ')`: every maximal whitespace run becomes one space,
    everything else is copied.
   */
  function Collapse(s: string): string
    decreases |s|
  {
    if s == [] then []
    else if IsSpace(s[0]) then " " + Collapse(TrimStart(s[1..]))
    else [s[0]] + Collapse(s[1..])
  }

  /** `normalizeText` of pages/CatalogPage.ts:144. */
  function Normalize(s: string): string {
    Trim(Collapse(Lower(s)))
  }

  /** The leading word of `s` (empty when `s` is empty or starts with whitespace). */
  function TakeWord(s: string): (w: string)
    ensures |w| <= |s| && w == s[..|w|]
    ensures |w| < |s| ==> IsSpace(s[|w|])
    ensures s != [] && !IsSpace(s[0]) ==> |w| > 0
  {
    if s == [] || IsSpace(s[0]) then [] else [s[0]] + TakeWord(s[1..])
  }

  /** The maximal non-whitespace runs of `s`, left to right. */
  function Words(s: string): seq<string>
    decreases |s|
  {
    var t := TrimStart(s);
    if t == [] then []
    else
      var w := TakeWord(t);
      [w] + Words(t[|w|..])
  }

  /** The words separated by single spaces. */
  function Join(ws: seq<string>): string {
    if ws == [] then []
    else if |ws| == 1 then ws[0]
    else ws[0] + " " + Join(ws[1..])
  }

  /**
    The shape `normalizeText` promises: whitespace only as single spaces,
    never two in a row, none at either end.
   */
  predicate Normalized(t: string) {
    && (forall i :: 0 <= i < |t| && IsSpace(t[i]) ==> t[i] == ' ')
    && (forall i :: 0 <= i < |t| - 1 ==> !(IsSpace(t[i]) && IsSpace(t[i + 1])))
    && (|t| > 0 ==> !IsSpace(t[0]) && !IsSpace(t[|t| - 1]))
  }

  lemma Associate(a: string, b: string, c: string)
    ensures a + (b + c) == (a + b) + c
  {
  }

  // ---------------------------------------------------------------------
  // Trimming

  /** What `TrimStart` removes is whitespace only. */
  lemma {:induction false} TrimStartRemovesSpace(s: string)
    ensures AllSpace(s[..|s| - |TrimStart(s)|])
    decreases |s|
  {
    if |s| > 0 && IsSpace(s[0]) {
      TrimStartRemovesSpace(s[1..]);
      var k := |s| - |TrimStart(s)|;
      assert s[..k] == [s[0]] + s[1..][..k - 1];
    }
  }

  lemma {:induction false} TrimEndAppendSpaces(x: string, y: string)
    requires AllSpace(y)
    ensures TrimEnd(x + y) == TrimEnd(x)
    decreases |y|
  {
    if y != [] {
      var y' := y[..|y| - 1];
      assert (x + y)[..|x + y| - 1] == x + y';
      TrimEndAppendSpaces(x, y');
    } else {
      assert x + y == x;
    }
  }

  /** Trailing whitespace of `y` is all `TrimEnd` removes when `y` holds a non-space. */
  lemma {:induction false} TrimEndAppendWord(x: string, y: string)
    requires exists i :: 0 <= i < |y| && !IsSpace(y[i])
    ensures TrimEnd(x + y) == x + TrimEnd(y)
    decreases |y|
  {
    if IsSpace(y[|y| - 1]) {
      var y' := y[..|y| - 1];
      assert (x + y)[..|x + y| - 1] == x + y';
      var i :| 0 <= i < |y| && !IsSpace(y[i]);
      assert i < |y'| && y'[i] == y[i];
      TrimEndAppendWord(x, y');
    }
  }

  /** What `TrimEnd` removes is whitespace only. */
  lemma {:induction false} TrimEndRemovesSpace(s: string)
    ensures AllSpace(s[|TrimEnd(s)|..])
    decreases |s|
  {
    if |s| > 0 && IsSpace(s[|s| - 1]) {
      var s' := s[..|s| - 1];
      TrimEndRemovesSpace(s');
      var k := |TrimEnd(s)|;
      assert s[k..] == s'[k..] + [s[|s| - 1]];
    }
  }

  /**
    `trim` keeps the inner slice of its input between a leading and a trailing
    whitespace run.
   */
  lemma TrimIsInnerSlice(s: string)
    ensures exists i, j :: 0 <= i <= j <= |s| && Trim(s) == s[i..j] && AllSpace(s[..i]) && AllSpace(s[j..])
  {
    var t := TrimStart(s);
    var r := TrimEnd(t);
    var i := |s| - |t|;
    TrimStartSuffix(s);
    TrimStartRemovesSpace(s);
    TrimEndRemovesSpace(t);
    var j := i + |r|;
    assert Trim(s) == s[i..j] by {
      assert s[i..j] == t[..|r|];
    }
    assert AllSpace(s[j..]) by {
      assert s[j..] == t[|r|..];
    }
  }

  /** The result of `trim` neither starts nor ends with whitespace. */
  lemma TrimEdges(s: string)
    ensures Trim(s) == [] || (!IsSpace(Trim(s)[0]) && !IsSpace(Trim(s)[|Trim(s)| - 1]))
  {
    var t := TrimStart(s);
    var r := TrimEnd(t);
    if r != [] {
      assert r[0] == t[0];
    }
  }

  /** Trimming twice is trimming once, so the second `trim` at line 143 changes nothing. */
  lemma TrimIdempotent(s: string)
    ensures Trim(Trim(s)) == Trim(s)
  {
    var r := Trim(s);
    assert r == [] || !IsSpace(r[0]);
    assert TrimStart(r) == r;
  }

  // ---------------------------------------------------------------------
  // Collapse and words

  lemma {:induction false} TakeWordNoSpace(s: string)
    ensures NoSpace(TakeWord(s))
    decreases |s|
  {
    if s != [] && !IsSpace(s[0]) {
      TakeWordNoSpace(s[1..]);
    }
  }

  /** `Words` yields words only. */
  lemma {:induction false} WordsAreWords(s: string)
    ensures AllWords(Words(s))
    decreases |s|
  {
    var t := TrimStart(s);
    if t == [] {
      assert Words(s) == [];
    } else {
      var w := TakeWord(t);
      var rest := t[|w|..];
      var ws := Words(s);
      assert ws == [w] + Words(rest);
      TakeWordNoSpace(t);
      WordsAreWords(rest);
      forall i | 0 <= i < |ws|
        ensures IsWord(ws[i])
      {
        if i > 0 {
          assert ws[i] == Words(rest)[i - 1];
        }
      }
    }
  }

  lemma {:induction false} CollapseWord(w: string, rest: string)
    requires NoSpace(w)
    ensures Collapse(w + rest) == w + Collapse(rest)
    decreases |w|
  {
    if w != [] {
      assert (w + rest)[1..] == w[1..] + rest;
      CollapseWord(w[1..], rest);
    } else {
      assert w + rest == rest;
    }
  }

  lemma CollapseFirst(s: string)
    requires s != []
    ensures Collapse(s) != []
    ensures Collapse(s)[0] == if IsSpace(s[0]) then ' ' else s[0]
  {
  }

  /** `Collapse` of a whitespace-only string is a single space or nothing. */
  lemma CollapseAllSpace(s: string)
    requires AllSpace(s)
    ensures Collapse(s) == if s == [] then [] else " "
  {
    if s != [] {
      assert AllSpace(s[1..]);
      TrimStartSuffix(s[1..]);
      assert TrimStart(s[1..]) == [];
    }
  }

  /** A string that starts with a word collapses and splits around that word. */
  lemma LeadingWord(v: string)
    requires v != [] && !IsSpace(v[0])
    ensures var w := TakeWord(v);
      && IsWord(w)
      && Collapse(v) == w + Collapse(v[|w|..])
      && Words(v) == [w] + Words(v[|w|..])
  {
    var w := TakeWord(v);
    TakeWordNoSpace(v);
    assert v == w + v[|w|..];
    CollapseWord(w, v[|w|..]);
  }

  /** A leading whitespace run collapses to one space and separates no words. */
  lemma LeadingSpace(r: string)
    requires r != [] && IsSpace(r[0])
    ensures Collapse(r) == " " + Collapse(TrimStart(r))
    ensures Words(r) == Words(TrimStart(r))
  {
    assert TrimStart(r[1..]) == TrimStart(r);
  }

  /** The key step: on a string without leading whitespace, collapsing and
      dropping the trailing space yields the joined words. */
  lemma {:induction false} TrimEndCollapse(v: string)
    requires v == [] || !IsSpace(v[0])
    ensures TrimEnd(Collapse(v)) == Join(Words(v))
    decreases |v|
  {
    if v != [] {
      LeadingWord(v);
      var w := TakeWord(v);
      var r := v[|w|..];
      var r' := TrimStart(r);
      if r' == [] {
        assert Words(r) == [];
        assert TrimEnd(w + Collapse(r)) == w by {
          TrimStartRemovesSpace(r);
          assert r[..|r|] == r;
          CollapseAllSpace(r);
          TrimEndAppendSpaces(w, Collapse(r));
        }
      } else {
        assert r != [] && IsSpace(r[0]);
        LeadingSpace(r);
        TrimEndCollapse(r');
        CollapseFirst(r');
        var c := Collapse(r');
        assert TrimEnd(w + Collapse(r)) == w + " " + TrimEnd(c) by {
          Associate(w, " ", c);
          TrimEndAppendWord(w + " ", c);
        }
        assert Words(r') != [] by {
          LeadingWord(r');
        }
        var ws := [w] + Words(r');
        assert ws[1..] == Words(r');
      }
    }
  }

  /** After collapsing, trimming the start is the same as trimming first. */
  lemma TrimStartCollapse(u: string)
    ensures TrimStart(Collapse(u)) == Collapse(TrimStart(u))
  {
    var t := TrimStart(u);
    if u == [] {
      assert Collapse(u) == [];
    } else if IsSpace(u[0]) {
      var c := Collapse(t);
      assert Collapse(u) == " " + c by {
        LeadingSpace(u);
      }
      assert TrimStart(c) == c by {
        if t != [] {
          CollapseFirst(t);
        }
      }
      assert (" " + c)[1..] == c;
      assert TrimStart(" " + c) == TrimStart(c);
    } else {
      assert t == u;
      CollapseFirst(u);
      assert TrimStart(Collapse(u)) == Collapse(u);
    }
  }

  /** `normalizeText` is the lower-cased words joined by single spaces. */
  lemma NormalizeIsJoinedWords(s: string)
    ensures Normalize(s) == Join(Words(Lower(s)))
  {
    var u := Lower(s);
    var t := TrimStart(u);
    TrimStartCollapse(u);
    TrimEndCollapse(t);
    assert Words(t) == Words(u) by {
      if u != [] && IsSpace(u[0]) {
        LeadingSpace(u);
      }
    }
  }

  /** The first character of joined words is the first word's first character. */
  lemma JoinFirst(ws: seq<string>)
    requires AllWords(ws) && |ws| > 0
    ensures Join(ws) != [] && Join(ws)[0] == ws[0][0]
  {
  }

  /** Joining words gives a string of the normalized shape. */
  lemma {:induction false} JoinNormalized(ws: seq<string>)
    requires AllWords(ws)
    ensures Normalized(Join(ws))
  {
    if |ws| > 1 {
      var w := ws[0];
      var rest := Join(ws[1..]);
      JoinNormalized(ws[1..]);
      JoinFirst(ws[1..]);
      var t := w + " " + rest;
      assert Join(ws) == t;
      forall i | 0 <= i < |t| - 1
        ensures !(IsSpace(t[i]) && IsSpace(t[i + 1]))
      {
        if i < |w| {
          assert t[i] == w[i];
        } else if i == |w| {
          assert t[i + 1] == rest[0];
        } else {
          assert t[i] == rest[i - |w| - 1];
        }
      }
      forall i | 0 <= i < |t|
        ensures IsSpace(t[i]) ==> t[i] == ' '
      {
        if i < |w| {
          assert t[i] == w[i];
        } else if i > |w| {
          assert t[i] == rest[i - |w| - 1];
        }
      }
      assert t[|t| - 1] == rest[|rest| - 1];
    }
  }

  /** Taking the leading word of a word followed by a separator gives back the word. */
  lemma {:induction false} TakeWordOfWord(w: string, x: string)
    requires NoSpace(w)
    requires x == [] || IsSpace(x[0])
    ensures TakeWord(w + x) == w
    decreases |w|
  {
    if w == [] {
      assert w + x == x;
    } else {
      assert (w + x)[1..] == w[1..] + x;
      TakeWordOfWord(w[1..], x);
    }
  }

  /** A word, a space and a string starting with a word split into that word and the rest. */
  lemma WordsOfWordSpace(w: string, rest: string)
    requires IsWord(w)
    requires rest != [] && !IsSpace(rest[0])
    ensures Words(w + " " + rest) == [w] + Words(rest)
  {
    var sr := " " + rest;
    var t := w + sr;
    Associate(w, " ", rest);
    assert t[0] == w[0];
    assert TrimStart(t) == t;
    assert TakeWord(t) == w by {
      TakeWordOfWord(w, sr);
    }
    assert t[|w|..] == sr;
    assert Words(t) == [w] + Words(sr);
    assert Words(sr) == Words(rest) by {
      assert sr[1..] == rest;
      LeadingSpace(sr);
      assert TrimStart(sr) == rest;
    }
  }

  lemma WordsOfWord(w: string)
    requires IsWord(w)
    ensures Words(w) == [w]
  {
    assert TrimStart(w) == w;
    assert TakeWord(w) == w by {
      TakeWordOfWord(w, []);
      assert w + [] == w;
    }
    assert w[|w|..] == [];
    assert Words(w) == [w] + Words([]);
    assert Words([]) == [];
  }

  /** Round trip: splitting the joined words gives the words back. */
  lemma {:induction false} WordsOfJoin(ws: seq<string>)
    requires AllWords(ws)
    ensures Words(Join(ws)) == ws
  {
    if ws == [] {
      assert Words([]) == [];
    } else if |ws| == 1 {
      assert Join(ws) == ws[0];
      WordsOfWord(ws[0]);
      assert [ws[0]] == ws;
    } else {
      var rest := Join(ws[1..]);
      assert Join(ws) == ws[0] + " " + rest;
      JoinFirst(ws[1..]);
      WordsOfWordSpace(ws[0], rest);
      WordsOfJoin(ws[1..]);
      assert [ws[0]] + ws[1..] == ws;
    }
  }

  // ---------------------------------------------------------------------
  // Lower-casing commutes with splitting into words

  lemma {:induction false} TrimStartLower(s: string)
    ensures TrimStart(Lower(s)) == Lower(TrimStart(s))
    decreases |s|
  {
    if |s| > 0 && IsSpace(s[0]) {
      assert Lower(s)[1..] == Lower(s[1..]);
      TrimStartLower(s[1..]);
    }
  }

  lemma {:induction false} TakeWordLower(s: string)
    ensures TakeWord(Lower(s)) == Lower(TakeWord(s))
    decreases |s|
  {
    if s != [] && !IsSpace(s[0]) {
      assert Lower(s)[1..] == Lower(s[1..]);
      TakeWordLower(s[1..]);
      assert Lower([s[0]] + TakeWord(s[1..])) == [ToLower(s[0])] + Lower(TakeWord(s[1..]));
    }
  }

  /** One step of `WordsLower`: the leading word is lower-cased, the rest recurses. */
  lemma WordsLowerStep(s: string)
    requires TrimStart(s) != []
    ensures var t := TrimStart(s);
      var w := TakeWord(t);
      && Words(s) == [w] + Words(t[|w|..])
      && Words(Lower(s)) == [Lower(w)] + Words(Lower(t[|w|..]))
  {
    var t := TrimStart(s);
    var w := TakeWord(t);
    var rest := t[|w|..];
    var lt := Lower(t);
    assert Words(s) == [w] + Words(rest);
    assert TrimStart(Lower(s)) == lt by {
      TrimStartLower(s);
    }
    assert lt != [] && !IsSpace(lt[0]);
    assert TakeWord(lt) == Lower(w) by {
      TakeWordLower(t);
    }
    assert lt[|w|..] == Lower(rest);
    assert Words(Lower(s)) == [Lower(w)] + Words(lt[|Lower(w)|..]);
  }

  /** The words of the lower-cased string are the lower-cased words. */
  lemma {:induction false} WordsLower(s: string)
    ensures |Words(Lower(s))| == |Words(s)|
    ensures forall i :: 0 <= i < |Words(s)| ==> Words(Lower(s))[i] == Lower(Words(s)[i])
    decreases |s|
  {
    var t := TrimStart(s);
    if t == [] {
      TrimStartLower(s);
    } else {
      var w := TakeWord(t);
      var rest := t[|w|..];
      WordsLowerStep(s);
      WordsLower(rest);
      var ws := Words(s);
      var ls := Words(Lower(s));
      forall i | 0 <= i < |ws|
        ensures ls[i] == Lower(ws[i])
      {
        if i > 0 {
          assert ls[i] == Words(Lower(rest))[i - 1];
          assert ws[i] == Words(rest)[i - 1];
        }
      }
    }
  }

  // ---------------------------------------------------------------------
  // Properties of normalizeText

  lemma NoUpperSuffix(s: string, k: nat)
    requires NoUpper(s) && k <= |s|
    ensures NoUpper(s[k..]) && NoUpper(s[..k])
  {
    assert forall i :: 0 <= i < |s| - k ==> s[k..][i] == s[k + i];
  }

  lemma {:induction false} CollapseNoUpper(s: string)
    requires NoUpper(s)
    ensures NoUpper(Collapse(s))
    decreases |s|
  {
    if s != [] {
      if IsSpace(s[0]) {
        var r := TrimStart(s[1..]);
        TrimStartSuffix(s[1..]);
        NoUpperSuffix(s, 1);
        NoUpperSuffix(s[1..], |s| - 1 - |r|);
        CollapseNoUpper(r);
        assert Collapse(s) == " " + Collapse(r);
      } else {
        NoUpperSuffix(s, 1);
        CollapseNoUpper(s[1..]);
        assert Collapse(s) == [s[0]] + Collapse(s[1..]);
      }
    }
  }

  /** The output of `normalizeText` has no upper-case letter. */
  lemma NormalizeNoUpper(s: string)
    ensures NoUpper(Normalize(s))
  {
    var c := Collapse(Lower(s));
    CollapseNoUpper(Lower(s));
    var t := TrimStart(c);
    TrimStartSuffix(c);
    NoUpperSuffix(c, |c| - |t|);
    var r := TrimEnd(t);
    NoUpperSuffix(t, |r|);
  }

  /** The output of `normalizeText` has the normalized shape and no upper-case letter. */
  lemma NormalizeShape(s: string)
    ensures Normalized(Normalize(s))
    ensures NoUpper(Normalize(s))
  {
    var ws := Words(Lower(s));
    NormalizeIsJoinedWords(s);
    WordsAreWords(Lower(s));
    JoinNormalized(ws);
    NormalizeNoUpper(s);
  }

  lemma {:induction false} CollapseNormalized(t: string)
    requires forall i :: 0 <= i < |t| && IsSpace(t[i]) ==> t[i] == ' '
    requires forall i :: 0 <= i < |t| - 1 ==> !(IsSpace(t[i]) && IsSpace(t[i + 1]))
    ensures Collapse(t) == t
    decreases |t|
  {
    if t != [] {
      if IsSpace(t[0]) && |t| > 1 {
        assert TrimStart(t[1..]) == t[1..];
      }
      CollapseNormalized(t[1..]);
    }
  }

  /** A lower-case string of normalized shape is left unchanged. */
  lemma NormalizeFixesNormalized(t: string)
    requires Normalized(t) && NoUpper(t)
    ensures Normalize(t) == t
  {
    assert Lower(t) == t;
    CollapseNormalized(t);
  }

  /** A lower-case word is its own normal form, trimmed or not. */
  lemma FixedWord(t: string)
    requires LowerWord(t)
    ensures Trim(t) == t
    ensures Normalize(t) == t
  {
    assert TrimStart(t) == t;
    assert TrimEnd(t) == t;
    NormalizeFixesNormalized(t);
  }

  /** Applying `normalizeText` twice equals applying it once. */
  lemma NormalizeIdempotent(s: string)
    ensures Normalize(Normalize(s)) == Normalize(s)
  {
    NormalizeShape(s);
    NormalizeFixesNormalized(Normalize(s));
  }

  /** Two strings normalize alike exactly when their lower-cased words agree. */
  lemma NormalizeEqualIff(a: string, b: string)
    ensures Normalize(a) == Normalize(b) <==> Words(Lower(a)) == Words(Lower(b))
  {
    NormalizeIsJoinedWords(a);
    NormalizeIsJoinedWords(b);
    WordsAreWords(Lower(a));
    WordsAreWords(Lower(b));
    WordsOfJoin(Words(Lower(a)));
    WordsOfJoin(Words(Lower(b)));
  }

  /** Strings that differ only in letter case normalize alike. */
  lemma CaseInsensitive(a: string, b: string)
    requires |a| == |b|
    requires forall i :: 0 <= i < |a| ==> ToLower(a[i]) == ToLower(b[i])
    ensures Normalize(a) == Normalize(b)
  {
    assert Lower(a) == Lower(b);
  }

  /** Strings with the same words, however long or of whichever kind their
      whitespace runs are (leading and trailing runs included), normalize alike. */
  lemma WhitespaceInsensitive(a: string, b: string)
    requires Words(a) == Words(b)
    ensures Normalize(a) == Normalize(b)
  {
    WordsLower(a);
    WordsLower(b);
    assert Words(Lower(a)) == Words(Lower(b));
    NormalizeIsJoinedWords(a);
    NormalizeIsJoinedWords(b);
  }

}

=== FILE: titles.dfy ===
/**
  The API side of the result check: the parsed search response, the hit
  count with its `|| 0` fallback (pages/CatalogPage.ts:105) and the
  de-duplicated title list `uniqueTitles` (pages/CatalogPage.ts:125-134).
 */
module Titles {
  import opened Optional

  /**
    The value of `hit._highlightResult?.title?.value`. Optional chaining
    yields `undefined` when any level of that path is missing; an explicit
    JSON `null` stays `null` and is not removed by the `!== undefined` filter.
   */
  datatype TitleValue = Undefined | Null | Str(text: string)

  datatype Hit = Hit(title: TitleValue)

  /**
    The parsed response body. `hits` is `None` when `searchResult` or
    `searchResult.hits` is missing from it.
   */
  datatype ApiResponse = ApiResponse(hits: Option<seq<Hit>>)

  /** `responseData.searchResult?.hits?.length || 0`. */
  function ApiResultsCount(r: ApiResponse): nat {
    match r.hits
    case None => 0
    case Some(hits) => |hits|
  }

  predicate Distinct<T(==)>(s: seq<T>) {
    forall i, j :: 0 <= i < j < |s| ==> s[i] != s[j]
  }

  /** Some hit carries title value `t`. */
  predicate HasTitle(hits: seq<Hit>, t: TitleValue) {
    exists i :: 0 <= i < |hits| && hits[i].title == t
  }

  /** The index of the first hit whose title value is `t`. */
  function FirstTitle(hits: seq<Hit>, t: TitleValue): (k: nat)
    requires HasTitle(hits, t)
    ensures k < |hits| && hits[k].title == t
    ensures forall j :: 0 <= j < k ==> hits[j].title != t
  {
    if hits[0].title == t then 0
    else
      assert HasTitle(hits[1..], t) by {
        var i :| 0 <= i < |hits| && hits[i].title == t;
        assert hits[1..][i - 1] == hits[i];
      }
      1 + FirstTitle(hits[1..], t)
  }

  /**
    `[...new Set(hits.map(title).filter(t => t !== undefined))]`: the defined
    title values in the order a `Set` first receives them. Set membership uses
    the raw values, so titles differing only in case or spacing stay apart.
   */
  function UniqueTitles(hits: seq<Hit>): (u: seq<TitleValue>)
    ensures |u| <= |hits|
    ensures Distinct(u)
    ensures forall t :: t in u <==> t != Undefined && HasTitle(hits, t)
  {
    if hits == [] then []
    else
      var prefix := hits[..|hits| - 1];
      var p := UniqueTitles(prefix);
      var t := hits[|hits| - 1].title;
      assert forall x :: HasTitle(hits, x) <==> HasTitle(prefix, x) || x == t by {
        forall x | HasTitle(prefix, x)
          ensures HasTitle(hits, x)
        {
          var i :| 0 <= i < |prefix| && prefix[i].title == x;
          assert hits[i] == prefix[i];
        }
        forall x | HasTitle(hits, x) && x != t
          ensures HasTitle(prefix, x)
        {
          var i :| 0 <= i < |hits| && hits[i].title == x;
          assert prefix[i] == hits[i];
        }
      }
      if t == Undefined || t in p then p else p + [t]
  }

  /**
    The loop behind `new Set(...)`: one pass over the hits, skipping undefined
    titles and titles already seen.
   */
  method CollectUniqueTitles(hits: seq<Hit>) returns (u: seq<TitleValue>)
    ensures u == UniqueTitles(hits)
  {
    u := [];
    var seen: set<TitleValue> := {};
    var i := 0;
    while i < |hits|
      invariant 0 <= i <= |hits|
      invariant u == UniqueTitles(hits[..i])
      invariant forall t :: t in seen <==> t in u
    {
      var t := hits[i].title;
      assert hits[..i + 1][..i] == hits[..i];
      if t != Undefined && t !in seen {
        u := u + [t];
        seen := seen + {t};
      }
      i := i + 1;
    }
    assert hits[..|hits|] == hits;
  }

  // ---------------------------------------------------------------------
  // Properties of uniqueTitles

  /** A first occurrence is determined by its defining property. */
  lemma FirstTitleIs(hits: seq<Hit>, t: TitleValue, k: nat)
    requires k < |hits| && hits[k].title == t
    requires forall j :: 0 <= j < k ==> hits[j].title != t
    ensures FirstTitle(hits, t) == k
  {
  }

  /**
    Every defined title value occurs in `uniqueTitles` exactly once, and no
    undefined entry does.
   */
  lemma UniqueTitlesExactlyOnce(hits: seq<Hit>, t: TitleValue)
    requires t != Undefined && HasTitle(hits, t)
    ensures exists k :: (0 <= k < |UniqueTitles(hits)| && UniqueTitles(hits)[k] == t &&
      forall j :: 0 <= j < |UniqueTitles(hits)| && UniqueTitles(hits)[j] == t ==> j == k)
    ensures Undefined !in UniqueTitles(hits)
  {
    var u := UniqueTitles(hits);
    assert t in u;
    var k :| 0 <= k < |u| && u[k] == t;
    assert forall j :: 0 <= j < |u| && u[j] == t ==> j == k;
  }

  /** `uniqueTitles` lists the titles in the order of their first occurrence among the hits. */
  lemma {:induction false} UniqueTitlesFirstOccurrenceOrder(hits: seq<Hit>)
    ensures forall i, j :: 0 <= i < j < |UniqueTitles(hits)| ==>
      FirstTitle(hits, UniqueTitles(hits)[i]) < FirstTitle(hits, UniqueTitles(hits)[j])
  {
    if hits != [] {
      var n := |hits| - 1;
      var prefix := hits[..n];
      var p := UniqueTitles(prefix);
      var t := hits[n].title;
      var u := UniqueTitles(hits);
      UniqueTitlesFirstOccurrenceOrder(prefix);
      // A title already present in the prefix keeps its first occurrence.
      forall x | x in p
        ensures FirstTitle(hits, x) == FirstTitle(prefix, x)
      {
        var k := FirstTitle(prefix, x);
        assert hits[k] == prefix[k];
        forall j | 0 <= j < k
          ensures hits[j].title != x
        {
          assert hits[j] == prefix[j];
        }
        FirstTitleIs(hits, x, k);
      }
      if t == Undefined || t in p {
        assert u == p;
      } else {
        assert u == p + [t];
        assert !HasTitle(prefix, t);
        forall j | 0 <= j < n
          ensures hits[j].title != t
        {
          assert hits[j] == prefix[j];
        }
        FirstTitleIs(hits, t, n);
        forall i, j | 0 <= i < j < |u|
          ensures FirstTitle(hits, u[i]) < FirstTitle(hits, u[j])
        {
          assert u[i] == p[i] && u[i] in p;
          if j < |p| {
            assert u[j] == p[j] && u[j] in p;
          } else {
            assert FirstTitle(prefix, u[i]) < n;
          }
        }
      }
    }
  }

  /**
    `uniqueTitles` is never longer than the hit count, and is exactly as long
    precisely when every hit has a defined title and no two hits share one.
   */
  lemma {:induction false} UniqueTitlesLength(hits: seq<Hit>)
    ensures |UniqueTitles(hits)| <= ApiResultsCount(ApiResponse(Some(hits)))
    ensures |UniqueTitles(hits)| == |hits| <==>
      (forall i :: 0 <= i < |hits| ==> hits[i].title != Undefined)
      && (forall i, j :: 0 <= i < j < |hits| ==> hits[i].title != hits[j].title)
  {
    if hits != [] {
      var n := |hits| - 1;
      var prefix := hits[..n];
      var p := UniqueTitles(prefix);
      var t := hits[n].title;
      UniqueTitlesLength(prefix);
      if t == Undefined {
        assert |UniqueTitles(hits)| < |hits|;
      } else if t in p {
        assert |UniqueTitles(hits)| < |hits|;
        var i :| 0 <= i < |prefix| && prefix[i].title == t;
        assert hits[i].title == hits[n].title;
      } else {
        assert !HasTitle(prefix, t);
        forall i | 0 <= i < n
          ensures hits[i].title != t
        {
          assert hits[i] == prefix[i];
        }
        assert forall i :: 0 <= i < n ==> hits[i] == prefix[i];
      }
    }
  }

  /** One step of `uniqueTitles`: the last hit's title is added unless undefined or already seen. */
  lemma UniqueTitlesStep(hits: seq<Hit>)
    requires hits != []
    ensures var p := UniqueTitles(hits[..|hits| - 1]);
      var t := hits[|hits| - 1].title;
      UniqueTitles(hits) == if t == Undefined || t in p then p else p + [t]
  {
  }

  /** An untitled hit appended after the last hit. */
  lemma UntitledHitAppended(hits: seq<Hit>)
    ensures UniqueTitles(hits + [Hit(Undefined)]) == UniqueTitles(hits)
  {
    assert (hits + [Hit(Undefined)])[..|hits|] == hits;
  }

  /**
    A hit without a title, wherever it stands, adds one to `apiResultsCount`
    and nothing to `uniqueTitles`.
   */
  lemma {:induction false} UntitledHitsCount(hits: seq<Hit>, k: nat)
    requires k <= |hits|
    ensures ApiResultsCount(ApiResponse(Some(hits[..k] + [Hit(Undefined)] + hits[k..]))) ==
      ApiResultsCount(ApiResponse(Some(hits))) + 1
    ensures UniqueTitles(hits[..k] + [Hit(Undefined)] + hits[k..]) == UniqueTitles(hits)
    decreases |hits|
  {
    var h := hits[..k] + [Hit(Undefined)] + hits[k..];
    if k == |hits| {
      assert h == hits + [Hit(Undefined)];
      UntitledHitAppended(hits);
    } else {
      var n := |hits| - 1;
      var front := hits[..n];
      UntitledHitsCount(front, k);
      assert h[..|h| - 1] == front[..k] + [Hit(Undefined)] + front[k..];
      assert h[|h| - 1] == hits[n];
      UniqueTitlesStep(h);
      UniqueTitlesStep(hits);
    }
  }

  /** Two hits with different string titles keep both, in hit order. */
  lemma TwoDistinctTitles(a: string, b: string)
    requires a != b
    ensures UniqueTitles([Hit(Str(a)), Hit(Str(b))]) == [Str(a), Str(b)]
  {
    var hits := [Hit(Str(a)), Hit(Str(b))];
    assert hits[..1] == [Hit(Str(a))];
    assert [Hit(Str(a))][..0] == [];
  }

  /** Titles that differ only in letter case both stay in `uniqueTitles`. */
  lemma CaseVariantsStayDistinct()
    ensures |UniqueTitles([Hit(Str("Cloud")), Hit(Str("cloud"))])| == 2
  {
    assert "Cloud"[0] != "cloud"[0];
    TwoDistinctTitles("Cloud", "cloud");
  }

  /** `apiResultsCount` is zero exactly when the hits are missing or empty. */
  lemma ApiResultsCountZero(r: ApiResponse)
    ensures ApiResultsCount(r) == 0 <==> r.hits == None || r.hits == Some([])
  {
  }

}
